=== FILE: README.md ===
# Course registration checkout handler, in Dafny

This project models the Netlify function `netlify/functions/inscricao.js`. The function takes a course
registration form (`nome`, `whatsapp`, `email`, `curso`, `modulo`). It prices the chosen module from the
static `PRECOS` table and inserts the registration into the Supabase `inscricoes` table. It then creates a
Mercado Pago Checkout Pro preference for that price. As a best effort, it patches the registration with the
preference id. Finally it answers with the checkout URL (`init_point`).

The handler is modelled as a pure function `Handler.Handle(request, config, upstream)`. It returns the
response and the sequence of outbound calls it attempted, with each call's target and payload. The result
of each outbound call is an input, not an effect. A call either threw, or replied with an ok flag, its raw
text and the decoded body.

Modules:

- `Wrappers`: `Option`, `Result`, and JavaScript truthiness of an optional string.
- `Prices`: the `PRECOS` table, the own-key lookup the handler uses, and the lookup as JavaScript evaluates it (see Findings).
- `Responses`: the `json` helper, response payloads and the error messages.
- `Payloads`: request, configuration, the inserted row, and the preference (title, item, payer, back URLs).
- `Handler`: the validation ladder (`Validate`), the three-call orchestration, and `Handle`.
- `Machine`: the same handler as a linear state machine (Validating, PersistingRegistration, CreatingSession,
  LinkingSession, Responding). It is proved equal to `Handle`, and its calls are proved to come out in order.
- `HandlerProperties`: the caller-facing guarantees of `Handle`.

Three behaviours of the code differ from what a reader of the form might expect. The model follows the code:

- A request body that is not JSON is not treated as an empty object. `JSON.parse` throws and the outer
  catch answers 500 "Erro interno" with the exception text. A body that is the JSON literal `null` also
  ends there, because destructuring `null` throws.
- The insert reply is not treated as "an array, else an object". The code takes `insertJson?.[0] || null`.
  That is the first element of an array, or the member named "0" of an object. Any other reply, and an
  object without such a member, leaves the registration without an id, and the PATCH is skipped.
- A 200 does not always carry a URL. When the preference reply has no `init_point`, the body is `{}`
  (`checkoutUrl` is `None`). When the preference reply decodes to `null`, reading `init_point` throws and the
  answer is 500 "Erro interno".

## Model

| member | source | states |
|---|---|---|
| `Prices.Price` | netlify/functions/inscricao.js:6-11 | A module has a price exactly when it is one of the four listed modules, and every price is positive and one of 50/70/90/180 |
| `Prices.PriceOfEachModule` | netlify/functions/inscricao.js:6-11 | Básico, Intermediário, Avançado and Pacote Completo cost exactly 50, 70, 90 and 180, and every other string has no price |
| `Prices.FalsyPriceIffNotKey` | netlify/functions/inscricao.js:44-48 | Because no tabled price is zero, the falsy test on the looked-up price holds exactly when the module is not a key |
| `Prices.PropertyLookup` | netlify/functions/inscricao.js:44 | `PRECOS[modulo]` as JavaScript evaluates it: for the four modules, the number is exactly the tabled price; an inherited Object.prototype member for its property names, `undefined` otherwise |
| `Prices.InheritedNameBypassesGuard` | netlify/functions/inscricao.js:44-48 | As written, "toString" and "__proto__" pass the invalid-module guard although they are not modules |
| `Prices.GuardAsWrittenAgreesWithPrice` | netlify/functions/inscricao.js:44-48 | Outside the inherited property names, the guard as written rejects exactly the modules the own-key lookup rejects |
| `Payloads.Title` | netlify/functions/inscricao.js:108 | The item title is the course, then " – ", then the module |
| `Payloads.MakeBackUrls` | netlify/functions/inscricao.js:114-118 | The success URL is the site URL followed by /sucesso.html; the failure and pending URLs are both the site URL followed by /erro.html |
| `Payloads.BuildPreference` | netlify/functions/inscricao.js:105-120 | The preference has one item, quantity 1, unit price equal to the registration's price, titled course, " – ", module; the payer is the registrant; the back URLs are those built from the site URL; auto-return is "approved" |
| `Payloads.PatchUrl` | netlify/functions/inscricao.js:143 | The PATCH target is the registrations endpoint, then the filter `?id=eq.`, then the registration id |
| `Payloads.PatchUrlIdentifiesRow` | netlify/functions/inscricao.js:143 | For one base URL, two PATCH targets are equal exactly when the row ids are equal, so the filter selects exactly the registration's row |
| `Handler.ReadForm` | netlify/functions/inscricao.js:28-29 | An absent body reads as `{}`; a non-JSON or `null` body throws; any other JSON body yields its fields |
| `Handler.Validate` | netlify/functions/inscricao.js:24-60 | The ladder proceeds exactly when the input is valid and the configuration complete; otherwise it answers 400, 405 or 500; when it proceeds the price is the table's price for the module |
| `Handler.ValidateAsWritten` | netlify/functions/inscricao.js:24-60 | The ladder with the module check as written proceeds exactly when the method is POST, the body is readable, the five fields are truthy, `PRECOS[modulo]` is truthy and the configuration is complete; the row's `valor` is then that looked-up value |
| `Handler.InputValidAsWrittenIff` | netlify/functions/inscricao.js:40-48 | The checks as written accept exactly the input the corrected checks accept, plus complete POST forms whose module is one of the twelve inherited Object.prototype names |
| `Handler.ValidateAsWrittenAgrees` | netlify/functions/inscricao.js:44-48 | For module names that are not inherited Object.prototype names, the as-written ladder and `Validate` reject with the same response, or proceed with the same row and price |
| `Handler.FirstCallAsWritten` | netlify/functions/inscricao.js:62-76 | As written, the insert to the registrations endpoint is attempted exactly when the as-written checks pass and the configuration is complete, without consulting any upstream; it carries the five submitted fields and `PRECOS[modulo]` as `valor` |
| `Handler.InheritedNameReachesInsert` | netlify/functions/inscricao.js:44-76 | As written, a complete form whose module is an inherited name such as "toString" reaches the insert of a row for a non-module; the modelled handler answers 400 "Módulo inválido" with no call |
| `Handler.Inscricao` | netlify/functions/inscricao.js:86-87 | The registration is the value under key 0: the first element of an array reply, or the member "0" of an object reply; it is found exactly when that value is present, and nothing for any other reply |
| `Handler.PatchCalls` | netlify/functions/inscricao.js:139-158 | At most one PATCH, attempted exactly when both the registration id and the preference id are truthy, carrying the preference id |
| `Handler.FinalResponse` | netlify/functions/inscricao.js:160-170 | 200 with the reply's `init_point` exactly for a preference object; a `null` reply gives 500 "Erro interno" with the exception of reading `init_point` |
| `Handler.Orchestrate` | netlify/functions/inscricao.js:62-165 | The insert of the registration always comes first; the preference built from it is requested exactly when the insert succeeded; at most three calls; 200 exactly when both calls succeeded and the preference reply is an object |
| `Handler.Handle` | netlify/functions/inscricao.js:13-179 | Every response is JSON with status 200/400/405/500; no call is attempted exactly when validation fails; 200 implies both the insert and the preference creation succeeded; the preference call and the PATCH appear only after the calls before them succeeded |
| `Machine.Step` | netlify/functions/inscricao.js:24-165 | Each stage moves strictly forward, and emits at most one call, whose kind is that stage's |
| `Machine.RunTraceOrdered` | netlify/functions/inscricao.js:62-158 | From any stage, the calls come in the order insert, create preference, patch, with none earlier than the stage allows |
| `Machine.RunAgreesWithHandle` | netlify/functions/inscricao.js:13-171 | Running the stage machine from Validating gives exactly the handler's response and calls |
| `Machine.HandleTraceOrdered` | netlify/functions/inscricao.js:62-158 | The handler's calls are a prefix of insert, create preference, patch, so each happens at most once |
| `HandlerProperties.MethodNotPostIs405` | netlify/functions/inscricao.js:24-26 | Any method other than POST gets 405 and no call |
| `HandlerProperties.MethodCheckReadsNothingElse` | netlify/functions/inscricao.js:24-26 | Under a non-POST method, the answer does not depend on the body, the configuration or any upstream result |
| `HandlerProperties.AbsentBodyReadsAsEmptyObject` | netlify/functions/inscricao.js:28 | A missing body behaves as `{}`, so a POST without a body gets 400 "Dados incompletos" |
| `HandlerProperties.MalformedBodyIs500` | netlify/functions/inscricao.js:28-29 | A non-JSON or `null` body gets 500 "Erro interno" with the exception text, and no call |
| `HandlerProperties.EveryResponseIsJson` | netlify/functions/inscricao.js:173-179 | Every response, on every path, carries exactly the header `Content-Type: application/json` |
| `HandlerProperties.IncompleteIff` | netlify/functions/inscricao.js:40-42 | 400 "Dados incompletos" is answered exactly for a POST whose body was read and lacks one of the five fields, and then no call is made |
| `HandlerProperties.UnknownModuleIff` | netlify/functions/inscricao.js:44-48 | "Módulo inválido" is answered exactly for complete input whose module is not listed; the response is exactly 400 `{error: "Módulo inválido", received: modulo}` with no other member, and no call is made |
| `HandlerProperties.ConfigErrorOnlyForValidInput` | netlify/functions/inscricao.js:58-60 | The configuration error is answered exactly when the input is valid and an environment value is missing or empty; an incomplete configuration never leads to a call |
| `HandlerProperties.RegistrationPricedFromTable` | netlify/functions/inscricao.js:67-76 | The first call is the insert of the submitted fields with the table's price, and the next call is the preference built from that row, charging the same price |
| `HandlerProperties.InsertFailureStops` | netlify/functions/inscricao.js:82-92 | A failed or thrown insert gets 500, with the upstream text or the exception text as details, and the preference is never requested |
| `HandlerProperties.PreferenceFailureKeepsRegistration` | netlify/functions/inscricao.js:127-136 | A failed or thrown preference creation gets 500 with details; the insert stays in the trace and nothing is patched |
| `HandlerProperties.PatchIffBothIds` | netlify/functions/inscricao.js:139-151 | After both calls succeed, the PATCH is attempted exactly when both ids are truthy, and it targets that registration with that preference id |
| `HandlerProperties.PatchOutcomeNeverMatters` | netlify/functions/inscricao.js:152-158 | Whether the PATCH succeeds, fails or throws, the response and the calls are the same |
| `HandlerProperties.NullPreferenceIsInternalError` | netlify/functions/inscricao.js:139-170 | A preference reply that decodes to `null` skips the PATCH and gets 500 "Erro interno" |
| `HandlerProperties.SuccessIff` | netlify/functions/inscricao.js:160-165 | 200 exactly when the input is valid, the configuration complete, both calls succeed and the preference reply is not `null`; its body is `{checkoutUrl: init_point}`, and the preference charged the module's price for one item titled course then module |
| `HandlerProperties.IntermediateValidates` | netlify/functions/inscricao.js:40-60 | The sample form for module Intermediário passes the ladder and is priced 70 |
| `HandlerProperties.IntermediateEndToEnd` | netlify/functions/inscricao.js:62-165 | With healthy upstreams, the sample form is inserted at 70, charged 70 as "Python – Intermediário", linked to the preference, and answered 200 with the checkout URL |

## Left out

- The `fetch` calls, the HTTP transport, and the request headers (`apikey`, `Authorization`, `Prefer`). Each call is represented by its target and payload in the trace, and its result is an input.
- `JSON.parse`, `JSON.stringify` and `safeJson` are foreign library calls. The request body and the upstream replies are given already decoded. Error details carry the raw upstream text or the exception text.
- An outbound call that never settles is not modelled. The code sets no timeout, so the hosting platform's invocation timeout would then decide the response. Each reply is therefore a throw or a response, and `HandlerProperties.PatchOutcomeNeverMatters` covers a PATCH that succeeds, fails or throws.
- The `console.log` lines and the `Date.now()` timing. They are logging and clock side effects with no effect on the result.
- Reading `process.env`. The four values are a `Config` of optional strings passed in.
- Form fields and row ids are modelled as strings. A non-string field (a number, say) is not modelled. Neither is a numeric id such as 0, whose falsiness the empty string stands in for.
- JSON bodies that are not objects, such as arrays, numbers or strings, have no form fields in JavaScript. They are represented as a `JsonValue` whose five fields are all absent.
- The PATCH's `mercadopago_preference_id` payload is recorded as the preference id only. The status code of the PATCH reply is not modelled, since the handler only logs it.
- Handler.Handle: prices modules with the own-key lookup `Prices.Price`. For a module named after an inherited Object.prototype member, it answers 400 "Módulo inválido" with no call. The code instead goes on to the configuration check. When the configuration is complete, it goes on to insert a row for that non-module, whatever the upstreams answer (see Findings and `Handler.InheritedNameReachesInsert`).
- HandlerProperties.ConfigErrorOnlyForValidInput: states the configuration error for the corrected lookup. As written, the code also answers this 500 for a complete form naming one of the twelve inherited names, which `Handler.InputValid` rejects (`Handler.ValidateAsWritten` proceeds exactly on `Handler.InputValidAsWritten`).
- HandlerProperties.RegistrationPricedFromTable: the table price holds for the corrected lookup. As written, an inherited name is inserted with `PRECOS[modulo]`, an inherited member, as `valor` (`Handler.FirstCallAsWritten`).
- HandlerProperties.SuccessIff: its "200 only for valid input" direction holds for the corrected lookup. As written, nothing after the module check looks at the module again. So an inherited name with a complete configuration and two successful upstream calls would also be answered 200.
- Handler.Validate: has the same deviation, through the predicate `Handler.InputValid`: it rejects the twelve inherited names that the code's `!valor` lets through. `Handler.ValidateAsWritten` is the ladder as written.
- HandlerProperties.UnknownModuleIff: states the "Módulo inválido" condition for the corrected lookup. As written, the condition excludes the twelve inherited names.
- How `JSON.stringify` serialises an inherited `valor` is not modelled. A function is dropped from the insert and preference payloads, and `__proto__` is written as `{}`. `Handler.FirstCallAsWritten` records the row with the looked-up value.

## Findings

| source | as written | input that shows it | evidently intended | confidence | as-written member | corrected member |
|---|---|---|---|---|---|---|
| netlify/functions/inscricao.js:44-48 | `PRECOS[modulo]` also finds members inherited from Object.prototype. Those are functions or objects, so they are truthy and `!valor` does not reject them | `modulo` = "toString" (also "__proto__", "constructor", "valueOf", ...) with the other four fields present | Only the four listed modules pass, and every other value gets 400 "Módulo inválido" | high; not executed | `Handler.InheritedNameReachesInsert` | `Prices.Price` |

=== FILE: handler.dfy ===
/** The request handler: the validation ladder, then three sequential calls
    (insert the registration, create the checkout preference, best-effort patch
    of the registration), then the response. Each outbound call's result is an
    input, so the handler is a pure function of request, configuration and
    upstream results, returning the response and the calls it attempted. */
module Handler {
  import opened Wrappers
  import opened Prices
  import opened Responses
  import opened Payloads

  /** What an outbound call produced: it threw (network failure, or reading the
      body failed), or it answered with an ok flag, its raw text and the text
      as decoded by `safeJson`. */
  datatype Reply<B> = Threw(error: string) | Replied(ok: bool, text: string, body: B)

  /** A registration row as returned by the insert, reduced to its id. */
  datatype Record = Record(id: Option<string>)

  /** The decoded insert response, as far as `insertJson?.[0]` can tell values
      apart: an array whose elements are a row or a falsy value (None); an object,
      of which only the member named "0" is read (None when absent or falsy); or
      any other value (`null`, a number, a boolean, a string). A non-empty string
      yields its first character, which has no `id`, so it reads as a row without
      an id would. */
  datatype InsertJson = Rows(rows: seq<Option<Record>>) | Members(zero: Option<Record>) | Scalar

  /** The decoded preference response: the literal `null`, or a value whose
      `id` and `init_point` members may be missing. */
  datatype PreferenceJson = NullPreference | PreferenceObject(id: Option<string>, initPoint: Option<string>)

  /** The results the three outbound calls would produce if attempted. */
  datatype Upstream = Upstream(
    insert: Reply<InsertJson>,
    preference: Reply<PreferenceJson>,
    patch: Reply<()>)

  /** An attempted outbound call, with its target and payload. */
  datatype Call =
    | InsertRegistration(url: string, record: Registration)
    | CreatePreference(url: string, preference: Preference)
    | PatchPreferenceId(url: string, preferenceId: string)

  datatype Outcome = Outcome(response: Response, trace: seq<Call>)

  /** The end of the validation ladder: an early response, or a priced
      registration and a complete configuration. */
  datatype Verdict = Reject(response: Response) | Proceed(registration: Registration, settings: Settings)

  /** String(err) of the TypeError raised by destructuring a `null` body. */
  const NullBodyError: string := "TypeError: Cannot destructure property 'nome' of 'data' as it is null."
  /** String(err) of the TypeError raised by reading `init_point` of `null`. */
  const NullPreferenceError: string := "TypeError: Cannot read properties of null (reading 'init_point')"

  predicate Ok<B>(r: Reply<B>)
  {
    r.Replied? && r.ok
  }

  /** All five required fields are truthy. */
  predicate AllPresent(f: Form)
  {
    Truthy(f.nome) && Truthy(f.whatsapp) && Truthy(f.email) && Truthy(f.curso) && Truthy(f.modulo)
  }

  /** All four environment values are truthy. */
  predicate ConfigComplete(env: Config)
  {
    Truthy(env.supabaseUrl) && Truthy(env.supabaseKey) && Truthy(env.mercadoPagoToken) && Truthy(env.siteUrl)
  }

  /** Decoding and destructuring the body; an absent body reads as `{}`. */
  function ReadForm(b: Body): (r: Result<Form, string>)
    ensures r.Failure? <==> b.Unparsable? || b.JsonNull?
    ensures b.NoBody? ==> r == Success(EmptyForm)
    ensures b.JsonValue? ==> r == Success(b.form)
  {
    match b
    case NoBody => Success(EmptyForm)
    case Unparsable(e) => Failure(e)
    case JsonNull => Failure(NullBodyError)
    case JsonValue(f) => Success(f)
  }

  /** The caller's input passes every check: POST, a readable body, five truthy
      fields and a listed module. */
  predicate InputValid(req: Request)
  {
    && req.httpMethod == "POST"
    && ReadForm(req.body).Success?
    && AllPresent(ReadForm(req.body).value)
    && ReadForm(req.body).value.modulo.value in Modules
  }

  /** The validation ladder: method, body, fields, module, configuration, in
      that order; the first failing check decides the response. */
  function Validate(req: Request, env: Config): (v: Verdict)
    ensures v.Proceed? <==> InputValid(req) && ConfigComplete(env)
    ensures v.Reject? ==> IsJson(v.response) && v.response.statusCode in {400, 405, 500}
    ensures v.Proceed? ==>
              && v.registration.modulo in Modules
              && v.registration.valor == PriceTable[v.registration.modulo]
    ensures v.Proceed? ==>
              && v.settings.siteUrl == env.siteUrl.value
              && v.settings.supabaseUrl == env.supabaseUrl.value
  {
    if req.httpMethod != "POST" then
      Reject(Error(405, MethodNotAllowed))
    else
      match ReadForm(req.body)
      case Failure(e) => Reject(ErrorWithDetails(500, InternalError, Thrown(e)))
      case Success(f) =>
        if !AllPresent(f) then
          Reject(Error(400, IncompleteData))
        else
          match Price(f.modulo.value)
          case None => Reject(Json(400, ErrorPayload(InvalidModule, f.modulo, None)))
          case Some(valor) =>
            if !ConfigComplete(env) then
              Reject(Error(500, EnvironmentMissing))
            else
              Proceed(
                Registration(f.nome.value, f.whatsapp.value, f.email.value, f.curso.value, f.modulo.value, valor),
                Settings(env.supabaseUrl.value, env.supabaseKey.value, env.mercadoPagoToken.value, env.siteUrl.value))
  }

  /** `insertJson?.[0] || null`: what the reply holds under key 0, if truthy. */
  function Inscricao(j: InsertJson): (r: Option<Record>)
    ensures r.Some? <==> (j.Rows? && |j.rows| > 0 && j.rows[0].Some?) || (j.Members? && j.zero.Some?)
    ensures r.Some? ==> r.value in RowsHeld(j)
    ensures j.Rows? && |j.rows| > 0 ==> r == j.rows[0]
    ensures j.Members? ==> r == j.zero
  {
    match j
    case Rows(rows) => if |rows| > 0 then rows[0] else None
    case Members(zero) => zero
    case Scalar => None
  }

  /** Every row the decoded reply holds, wherever it sits. */
  function RowsHeld(j: InsertJson): set<Record>
  {
    match j
    case Rows(rows) => set i | 0 <= i < |rows| && rows[i].Some? :: rows[i].value
    case Members(zero) => if zero.Some? then {zero.value} else {}
    case Scalar => {}
  }

  /** The id the registration would be patched with, when both ids are truthy. */
  function LinkedIds(inscricao: Option<Record>, mp: PreferenceJson): Option<(string, string)>
  {
    if inscricao.Some? && Truthy(inscricao.value.id) && mp.PreferenceObject? && Truthy(mp.id) then
      Some((inscricao.value.id.value, mp.id.value))
    else
      None
  }

  /** The best-effort link: one PATCH when both ids are truthy, none otherwise. */
  function PatchCalls(s: Settings, inscricao: Option<Record>, mp: PreferenceJson): (calls: seq<Call>)
    ensures |calls| <= 1
    ensures |calls| == 1 <==> LinkedIds(inscricao, mp).Some?
    ensures |calls| == 1 ==> calls[0].PatchPreferenceId? && calls[0].preferenceId == mp.id.value
  {
    match LinkedIds(inscricao, mp)
    case None => []
    case Some((id, prefId)) => [PatchPreferenceId(PatchUrl(s.supabaseUrl, id), prefId)]
  }

  /** The response after the link step: the checkout URL, or the internal error
      raised by reading `init_point` of a `null` reply. */
  function FinalResponse(mp: PreferenceJson): (r: Response)
    ensures r.statusCode == 200 <==> mp.PreferenceObject?
    ensures mp.PreferenceObject? ==> r.body == CheckoutPayload(mp.initPoint)
    ensures mp.NullPreference? ==> r == ErrorWithDetails(500, InternalError, Thrown(NullPreferenceError))
  {
    match mp
    case NullPreference => ErrorWithDetails(500, InternalError, Thrown(NullPreferenceError))
    case PreferenceObject(_, initPoint) => Json(200, CheckoutPayload(initPoint))
  }

  /** The response when the insert did not succeed. */
  function InsertFailure(r: Reply<InsertJson>): Response
    requires !Ok(r)
  {
    match r
    case Threw(e) => ErrorWithDetails(500, SupabaseUnreachable, Thrown(e))
    case Replied(_, text, _) => ErrorWithDetails(500, InsertRejected, UpstreamText(text))
  }

  /** The response when the preference was not created. */
  function PreferenceFailure(r: Reply<PreferenceJson>): Response
    requires !Ok(r)
  {
    match r
    case Threw(e) => ErrorWithDetails(500, MercadoPagoUnreachable, Thrown(e))
    case Replied(_, text, _) => ErrorWithDetails(500, PreferenceRejected, UpstreamText(text))
  }

  /** Lines 62-165: insert, create the preference, link, respond; the first
      two stop the request on failure, the link never does. */
  function Orchestrate(reg: Registration, s: Settings, up: Upstream): (out: Outcome)
    ensures 1 <= |out.trace| <= 3
    ensures out.trace[0] == InsertRegistration(InsertUrl(s.supabaseUrl), reg)
    ensures |out.trace| >= 2 <==> Ok(up.insert)
    ensures |out.trace| >= 2 ==> out.trace[1] == CreatePreference(PreferencesEndpoint, BuildPreference(reg, s.siteUrl))
    ensures out.response.statusCode == 200 <==> Ok(up.insert) && Ok(up.preference) && up.preference.body.PreferenceObject?
  {
    var insertCall := InsertRegistration(InsertUrl(s.supabaseUrl), reg);
    if !Ok(up.insert) then
      Outcome(InsertFailure(up.insert), [insertCall])
    else
      var inscricao := Inscricao(up.insert.body);
      var preferenceCall := CreatePreference(PreferencesEndpoint, BuildPreference(reg, s.siteUrl));
      if !Ok(up.preference) then
        Outcome(PreferenceFailure(up.preference), [insertCall, preferenceCall])
      else
        var mp := up.preference.body;
        Outcome(FinalResponse(mp), [insertCall, preferenceCall] + PatchCalls(s, inscricao, mp))
  }

  // ---------------------------------------------------------------------------
  // The ladder with the module check exactly as written (`!PRECOS[modulo]`).

  /** The row the code would insert: `valor` is whatever `PRECOS[modulo]` gave. */
  datatype RowAsWritten = RowAsWritten(nome: string, whatsapp: string, email: string, curso: string, modulo: string, valor: JsValue)

  datatype VerdictAsWritten =
    | RejectAsWritten(response: Response)
    | ProceedAsWritten(row: RowAsWritten, settings: Settings)

  /** The caller's input passes every check as written: as InputValid, but the
      module only has to make `PRECOS[modulo]` truthy. */
  predicate InputValidAsWritten(req: Request)
  {
    && req.httpMethod == "POST"
    && ReadForm(req.body).Success?
    && AllPresent(ReadForm(req.body).value)
    && JsTruthy(PropertyLookup(ReadForm(req.body).value.modulo.value))
  }

  /** Lines 24-60 with the JavaScript property lookup in place of the own-key
      lookup; every other rung is the same as in Validate. */
  function ValidateAsWritten(req: Request, env: Config): (v: VerdictAsWritten)
    ensures v.ProceedAsWritten? <==> InputValidAsWritten(req) && ConfigComplete(env)
    ensures v.ProceedAsWritten? ==> JsTruthy(v.row.valor) && v.row.valor == PropertyLookup(v.row.modulo)
    ensures v.ProceedAsWritten? ==>
              && v.settings.siteUrl == env.siteUrl.value
              && v.settings.supabaseUrl == env.supabaseUrl.value
  {
    if req.httpMethod != "POST" then
      RejectAsWritten(Error(405, MethodNotAllowed))
    else
      match ReadForm(req.body)
      case Failure(e) => RejectAsWritten(ErrorWithDetails(500, InternalError, Thrown(e)))
      case Success(f) =>
        if !AllPresent(f) then
          RejectAsWritten(Error(400, IncompleteData))
        else
          var valor := PropertyLookup(f.modulo.value);
          if !JsTruthy(valor) then
            RejectAsWritten(Json(400, ErrorPayload(InvalidModule, f.modulo, None)))
          else if !ConfigComplete(env) then
            RejectAsWritten(Error(500, EnvironmentMissing))
          else
            ProceedAsWritten(
              RowAsWritten(f.nome.value, f.whatsapp.value, f.email.value, f.curso.value, f.modulo.value, valor),
              Settings(env.supabaseUrl.value, env.supabaseKey.value, env.mercadoPagoToken.value, env.siteUrl.value))
  }

  /** The first outbound call as written: the insert at line 67, attempted
      whenever the as-written ladder proceeds, whatever the upstreams answer. */
  function FirstCallAsWritten(req: Request, env: Config): (c: Option<(string, RowAsWritten)>)
    ensures c.Some? <==> InputValidAsWritten(req) && ConfigComplete(env)
    ensures c.Some? ==> c.value.0 == InsertUrl(env.supabaseUrl.value)
    ensures c.Some? ==>
              var f := ReadForm(req.body).value;
              c.value.1 == RowAsWritten(f.nome.value, f.whatsapp.value, f.email.value, f.curso.value, f.modulo.value,
                                        PropertyLookup(f.modulo.value))
  {
    match ValidateAsWritten(req, env)
    case RejectAsWritten(_) => None
    case ProceedAsWritten(row, s) => Some((InsertUrl(s.supabaseUrl), row))
  }

  /** The written checks accept exactly what the corrected ones accept, plus
      complete forms naming an inherited Object.prototype member. */
  lemma InputValidAsWrittenIff(req: Request)
    ensures InputValidAsWritten(req)
        <==> || InputValid(req)
             || (&& req.httpMethod == "POST"
                 && ReadForm(req.body).Success?
                 && AllPresent(ReadForm(req.body).value)
                 && ReadForm(req.body).value.modulo.value in ObjectPrototypeMembers)
  {
  }

  /** Outside the inherited property names the written ladder and Validate give
      the same rejection, or both proceed with the same row and price. */
  lemma ValidateAsWrittenAgrees(req: Request, env: Config)
    requires ReadForm(req.body).Success? && Truthy(ReadForm(req.body).value.modulo)
             ==> ReadForm(req.body).value.modulo.value !in ObjectPrototypeMembers
    ensures ValidateAsWritten(req, env).RejectAsWritten? <==> Validate(req, env).Reject?
    ensures Validate(req, env).Reject? ==> ValidateAsWritten(req, env).response == Validate(req, env).response
    ensures Validate(req, env).Proceed? ==>
              var reg := Validate(req, env).registration;
              ValidateAsWritten(req, env)
                == ProceedAsWritten(RowAsWritten(reg.nome, reg.whatsapp, reg.email, reg.curso, reg.modulo, Number(reg.valor)),
                                    Validate(req, env).settings)
  {
  }

  /** As written, a complete form naming an inherited member reaches the insert
      (so a row for a non-module is requested), where Handle answers 400
      "Módulo inválido" and calls nothing. */
  lemma InheritedNameReachesInsert(req: Request, env: Config, up: Upstream)
    requires req.httpMethod == "POST" && ReadForm(req.body).Success?
    requires AllPresent(ReadForm(req.body).value)
    requires ReadForm(req.body).value.modulo.value in ObjectPrototypeMembers
    requires ConfigComplete(env)
    ensures FirstCallAsWritten(req, env).Some?
    ensures FirstCallAsWritten(req, env).value.1.modulo !in Modules
    ensures Handle(req, env, up).response == Json(400, ErrorPayload(InvalidModule, ReadForm(req.body).value.modulo, None))
    ensures Handle(req, env, up).trace == []
  {
  }

  /** The handler. */
  function Handle(req: Request, env: Config, up: Upstream): (out: Outcome)
    ensures IsJson(out.response)
    ensures out.response.statusCode in {200, 400, 405, 500}
    ensures out.trace == [] <==> !(InputValid(req) && ConfigComplete(env))
    ensures out.response.statusCode == 200 ==> Ok(up.insert) && Ok(up.preference) && |out.trace| >= 2
    ensures forall i :: 0 <= i < |out.trace| && out.trace[i].CreatePreference? ==> Ok(up.insert)
    ensures forall i :: 0 <= i < |out.trace| && out.trace[i].PatchPreferenceId? ==> Ok(up.insert) && Ok(up.preference)
  {
    match Validate(req, env)
    case Reject(r) => Outcome(r, [])
    case Proceed(reg, s) => Orchestrate(reg, s, up)
  }
}

=== FILE: machine.dfy ===
/** The handler read as a linear state machine
      Validating -> PersistingRegistration -> CreatingSession -> LinkingSession -> Responding,
    where each transition may emit the outbound call it performs and the first
    three may jump straight to Responding. Run executes it; the lemmas show it
    computes what Handler.Handle computes and that calls come out in order. */
module Machine {
  import opened Wrappers
  import opened Responses
  import opened Payloads
  import opened Handler

  datatype Stage =
    | Validating
    | PersistingRegistration(registration: Registration, settings: Settings)
    | CreatingSession(registration: Registration, settings: Settings, inscricao: Option<Record>)
    | LinkingSession(settings: Settings, inscricao: Option<Record>, preference: PreferenceJson)
    | Responding(response: Response)

  /** Distance to Responding. */
  function Rank(s: Stage): nat
  {
    match s
    case Validating => 4
    case PersistingRegistration(_, _) => 3
    case CreatingSession(_, _, _) => 2
    case LinkingSession(_, _, _) => 1
    case Responding(_) => 0
  }

  /** The order of a call in the handler's sequence: insert, create, patch. */
  function Kind(c: Call): nat
  {
    match c
    case InsertRegistration(_, _) => 0
    case CreatePreference(_, _) => 1
    case PatchPreferenceId(_, _) => 2
  }

  /** The least kind of call a stage (or any stage after it) can still emit. */
  function Floor(s: Stage): nat
  {
    match s
    case Validating => 0
    case PersistingRegistration(_, _) => 0
    case CreatingSession(_, _, _) => 1
    case LinkingSession(_, _, _) => 2
    case Responding(_) => 3
  }

  /** Calls come strictly in handler order, so each kind occurs at most once. */
  predicate Ordered(trace: seq<Call>)
  {
    forall i, j :: 0 <= i < j < |trace| ==> Kind(trace[i]) < Kind(trace[j])
  }

  /** One transition and the calls it performs. */
  function Step(req: Request, env: Config, up: Upstream, s: Stage): (next: (Stage, seq<Call>))
    requires !s.Responding?
    ensures Rank(next.0) < Rank(s)
    ensures |next.1| <= 1
    ensures forall c :: c in next.1 ==> Kind(c) == Floor(s)
    ensures next.1 != [] ==> Floor(s) < Floor(next.0)
    ensures Floor(s) <= Floor(next.0)
  {
    match s
    case Validating =>
      (match Validate(req, env)
       case Reject(r) => (Responding(r), [])
       case Proceed(reg, st) => (PersistingRegistration(reg, st), []))
    case PersistingRegistration(reg, st) =>
      var call := InsertRegistration(InsertUrl(st.supabaseUrl), reg);
      if !Ok(up.insert) then (Responding(InsertFailure(up.insert)), [call])
      else (CreatingSession(reg, st, Inscricao(up.insert.body)), [call])
    case CreatingSession(reg, st, inscricao) =>
      var call := CreatePreference(PreferencesEndpoint, BuildPreference(reg, st.siteUrl));
      if !Ok(up.preference) then (Responding(PreferenceFailure(up.preference)), [call])
      else (LinkingSession(st, inscricao, up.preference.body), [call])
    case LinkingSession(st, inscricao, mp) =>
      (Responding(FinalResponse(mp)), PatchCalls(st, inscricao, mp))
  }

  /** Runs the machine from a stage to its response, collecting the calls. */
  function Run(req: Request, env: Config, up: Upstream, s: Stage): Outcome
    decreases Rank(s)
  {
    if s.Responding? then Outcome(s.response, [])
    else
      var (next, calls) := Step(req, env, up, s);
      var rest := Run(req, env, up, next);
      Outcome(rest.response, calls + rest.trace)
  }

  /** From any stage, the calls emitted are in handler order and none of them
      precedes what that stage can still do. */
  lemma {:induction false} RunTraceOrdered(req: Request, env: Config, up: Upstream, s: Stage)
    ensures Ordered(Run(req, env, up, s).trace)
    ensures forall c :: c in Run(req, env, up, s).trace ==> Floor(s) <= Kind(c)
    decreases Rank(s)
  {
    if !s.Responding? {
      var (next, calls) := Step(req, env, up, s);
      RunTraceOrdered(req, env, up, next);
      var rest := Run(req, env, up, next).trace;
      var trace := calls + rest;
      assert Run(req, env, up, s).trace == trace;
      forall i, j | 0 <= i < j < |trace|
        ensures Kind(trace[i]) < Kind(trace[j])
      {
        if j < |calls| {
          assert false;
        } else if i < |calls| {
          assert trace[j] in rest;
        } else {
          assert trace[i] == rest[i - |calls|] && trace[j] == rest[j - |calls|];
        }
      }
      forall c | c in trace
        ensures Floor(s) <= Kind(c)
      {
        if c !in calls {
          assert c in rest;
        }
      }
    }
  }

  /** Running the machine from Validating is the handler. */
  lemma RunAgreesWithHandle(req: Request, env: Config, up: Upstream)
    ensures Run(req, env, up, Validating) == Handle(req, env, up)
  {
    match Validate(req, env)
    case Reject(r) =>
    case Proceed(reg, st) =>
      var p := PersistingRegistration(reg, st);
      var o := Orchestrate(reg, st, up);
      assert Run(req, env, up, Validating) == Run(req, env, up, p);
      if !Ok(up.insert) {
        assert o.trace == o.trace + [];
      } else {
        var c := CreatingSession(reg, st, Inscricao(up.insert.body));
        if !Ok(up.preference) {
          assert o.trace[1..] == o.trace[1..] + [];
        } else {
          var l := LinkingSession(st, Inscricao(up.insert.body), up.preference.body);
          assert Run(req, env, up, l) == Outcome(o.response, o.trace[2..]);
        }
        assert Run(req, env, up, c) == Outcome(o.response, o.trace[1..]);
        assert o.trace == o.trace[..1] + o.trace[1..];
      }
      assert Run(req, env, up, p) == o;
  }

  /** The handler's calls are a prefix of insert, create, patch. */
  lemma HandleTraceOrdered(req: Request, env: Config, up: Upstream)
    ensures Ordered(Handle(req, env, up).trace)
    ensures |Handle(req, env, up).trace| <= 3
  {
    RunAgreesWithHandle(req, env, up);
    RunTraceOrdered(req, env, up, Validating);
  }
}

=== FILE: payloads.dfy ===
/** The inbound request, the configuration, and the records the handler sends
    to the registration table and to the checkout-preference endpoint. */
module Payloads {
  import opened Wrappers

  /** The destructured form fields; any of them may be missing. */
  datatype Form = Form(
    nome: Option<string>,
    whatsapp: Option<string>,
    email: Option<string>,
    curso: Option<string>,
    modulo: Option<string>)

  const EmptyForm: Form := Form(None, None, None, None, None)

  /** The request body as `JSON.parse(event.body || "{}")` sees it: absent or
      empty, not JSON (the parser's exception text), the JSON literal `null`, or
      any other JSON value, of which only the five fields matter. */
  datatype Body = NoBody | Unparsable(syntaxError: string) | JsonNull | JsonValue(form: Form)

  datatype Request = Request(httpMethod: string, body: Body)

  /** The four environment values, each possibly unset. */
  datatype Config = Config(
    supabaseUrl: Option<string>,
    supabaseKey: Option<string>,
    mercadoPagoToken: Option<string>,
    siteUrl: Option<string>)

  /** The configuration once every value is known to be set and non-empty. */
  datatype Settings = Settings(
    supabaseUrl: string,
    supabaseKey: string,
    mercadoPagoToken: string,
    siteUrl: string)

  /** The row inserted into the registrations table. */
  datatype Registration = Registration(
    nome: string,
    whatsapp: string,
    email: string,
    curso: string,
    modulo: string,
    valor: nat)

  datatype Item = Item(title: string, quantity: nat, unitPrice: nat)

  datatype Payer = Payer(name: string, email: string)

  datatype BackUrls = BackUrls(success: string, failure: string, pending: string)

  /** The checkout preference requested from the payment provider. */
  datatype Preference = Preference(items: seq<Item>, payer: Payer, backUrls: BackUrls, autoReturn: string)

  const TitleSeparator: string := " – "
  const SuccessPage: string := "/sucesso.html"
  const ErrorPage: string := "/erro.html"
  const AutoReturnApproved: string := "approved"

  const RegistrationsPath: string := "/rest/v1/inscricoes"
  /** The PostgREST filter selecting the row whose id equals what follows. */
  const IdFilter: string := "?id=eq."
  const PreferencesEndpoint: string := "https://api.mercadopago.com/checkout/preferences"

  /** The item title: course and module joined by a spaced en dash. */
  function Title(curso: string, modulo: string): (t: string)
    ensures |t| == |curso| + 3 + |modulo|
    ensures t[..|curso|] == curso
    ensures t[|curso|..|curso| + 3] == TitleSeparator
    ensures t[|curso| + 3..] == modulo
  {
    curso + TitleSeparator + modulo
  }

  /** The three return addresses; failure and pending share the error page. */
  function MakeBackUrls(siteUrl: string): (b: BackUrls)
    ensures b.failure == b.pending
    ensures b.success != b.failure
    ensures siteUrl <= b.success && b.success[|siteUrl|..] == SuccessPage
    ensures siteUrl <= b.failure && b.failure[|siteUrl|..] == ErrorPage
  {
    BackUrls(siteUrl + SuccessPage, siteUrl + ErrorPage, siteUrl + ErrorPage)
  }

  /** The preference for one registration: a single item of quantity one at the
      registration's price, the registrant as payer. */
  function BuildPreference(reg: Registration, siteUrl: string): (p: Preference)
    ensures |p.items| == 1
    ensures p.items[0].quantity == 1
    ensures p.items[0].unitPrice == reg.valor
    ensures p.items[0].title == Title(reg.curso, reg.modulo)
    ensures p.payer.name == reg.nome && p.payer.email == reg.email
    ensures p.backUrls == MakeBackUrls(siteUrl)
    ensures p.autoReturn == AutoReturnApproved
  {
    Preference(
      [Item(Title(reg.curso, reg.modulo), 1, reg.valor)],
      Payer(reg.nome, reg.email),
      MakeBackUrls(siteUrl),
      AutoReturnApproved)
  }

  function InsertUrl(supabaseUrl: string): string
  {
    supabaseUrl + RegistrationsPath
  }

  /** The PATCH target: the registrations table filtered to one id. */
  function PatchUrl(supabaseUrl: string, id: string): (u: string)
    ensures InsertUrl(supabaseUrl) <= u
    ensures |u| == |InsertUrl(supabaseUrl)| + |IdFilter| + |id|
    ensures u[|InsertUrl(supabaseUrl)|..|u| - |id|] == IdFilter
    ensures u[|u| - |id|..] == id
  {
    InsertUrl(supabaseUrl) + IdFilter + id
  }

  /** For one base URL, the PATCH target determines the row id: two different
      registrations are never patched through the same URL. */
  lemma {:induction false} PatchUrlIdentifiesRow(supabaseUrl: string, id1: string, id2: string)
    ensures PatchUrl(supabaseUrl, id1) == PatchUrl(supabaseUrl, id2) <==> id1 == id2
  {
    if PatchUrl(supabaseUrl, id1) == PatchUrl(supabaseUrl, id2) {
      var u := PatchUrl(supabaseUrl, id1);
      var k := |InsertUrl(supabaseUrl)| + |IdFilter|;
      assert id1 == u[k..];
      assert id2 == PatchUrl(supabaseUrl, id2)[k..];
    }
  }
}

=== FILE: prices.dfy ===
/** The static module-to-price table and the lookup the handler performs on it. */
module Prices {
  import opened Wrappers

  const Basico: string := "Básico"
  const Intermediario: string := "Intermediário"
  const Avancado: string := "Avançado"
  const PacoteCompleto: string := "Pacote Completo"

  /** The four course modules a registrant may choose. */
  const Modules: set<string> := {Basico, Intermediario, Avancado, PacoteCompleto}

  /** PRECOS: the price of each module, in whole units of the checkout currency. */
  const PriceTable: map<string, nat> :=
    map[Basico := 50, Intermediario := 70, Avancado := 90, PacoteCompleto := 180]

  /** The price of a module, looking only at the table's own keys: None is the
      handler's "invalid module" case. */
  function Price(modulo: string): (r: Option<nat>)
    ensures r.Some? <==> modulo in Modules
    ensures r.Some? ==> r.value > 0
    ensures r.Some? ==> r.value in {50, 70, 90, 180}
  {
    if modulo in PriceTable then Some(PriceTable[modulo]) else None
  }

  /** Each listed module has exactly its tabled price, and nothing else has one. */
  lemma PriceOfEachModule(modulo: string)
    ensures Price(Basico) == Some(50)
    ensures Price(Intermediario) == Some(70)
    ensures Price(Avancado) == Some(90)
    ensures Price(PacoteCompleto) == Some(180)
    ensures modulo !in Modules ==> Price(modulo) == None
  {
  }

  /** Every tabled value is nonzero, so the falsy test `!valor` on a tabled price
      holds exactly when the module is not a key. */
  lemma FalsyPriceIffNotKey(modulo: string)
    ensures (Price(modulo).None? || Price(modulo).value == 0) <==> modulo !in PriceTable
  {
  }

  // ---------------------------------------------------------------------------
  // The lookup as JavaScript evaluates `PRECOS[modulo]`.

  /** The values `PRECOS[modulo]` can produce: a tabled number, `undefined`, or
      a member inherited from Object.prototype (a function or an object). */
  datatype JsValue = Undefined | Number(n: int) | PrototypeMember(name: string)

  /** Property names every plain object literal inherits from Object.prototype. */
  const ObjectPrototypeMembers: set<string> := {
    "constructor", "hasOwnProperty", "isPrototypeOf", "propertyIsEnumerable",
    "toLocaleString", "toString", "valueOf", "__proto__",
    "__defineGetter__", "__defineSetter__", "__lookupGetter__", "__lookupSetter__"
  }

  /** `PRECOS[modulo]`: own properties first, then the prototype chain. */
  function PropertyLookup(modulo: string): (v: JsValue)
    ensures v.Number? <==> modulo in Modules
    ensures v.Number? ==> Price(modulo) == Some(v.n)
    ensures v.PrototypeMember? <==> modulo !in Modules && modulo in ObjectPrototypeMembers
    ensures v.Undefined? <==> modulo !in Modules && modulo !in ObjectPrototypeMembers
  {
    if modulo in PriceTable then Number(PriceTable[modulo])
    else if modulo in ObjectPrototypeMembers then PrototypeMember(modulo)
    else Undefined
  }

  /** JavaScript truthiness of a looked-up value; functions and objects are truthy. */
  predicate JsTruthy(v: JsValue)
  {
    match v
    case Undefined => false
    case Number(n) => n != 0
    case PrototypeMember(_) => true
  }

  /** The invalid-module guard `!valor` exactly as written. */
  predicate GuardRejectsAsWritten(modulo: string)
  {
    !JsTruthy(PropertyLookup(modulo))
  }

  /** As written, a module named after an inherited member such as "toString"
      passes the guard although it is not one of the four modules. */
  lemma InheritedNameBypassesGuard()
    ensures !GuardRejectsAsWritten("toString") && "toString" !in Modules
    ensures !GuardRejectsAsWritten("__proto__") && "__proto__" !in Modules
  {
  }

  /** Outside the inherited names, the written guard and the own-key lookup agree. */
  lemma GuardAsWrittenAgreesWithPrice(modulo: string)
    requires modulo !in ObjectPrototypeMembers
    ensures GuardRejectsAsWritten(modulo) <==> Price(modulo).None?
  {
  }
}

=== FILE: properties.dfy ===
/** What the handler promises its caller, stated over all requests,
    configurations and upstream results. */
module HandlerProperties {
  import opened Wrappers
  import opened Prices
  import opened Responses
  import opened Payloads
  import opened Handler

  // ---------------------------------------------------------------------------
  // The validation ladder

  /** Any method but POST is refused with 405 before anything else happens. */
  lemma MethodNotPostIs405(req: Request, env: Config, up: Upstream)
    requires req.httpMethod != "POST"
    ensures Handle(req, env, up) == Outcome(Error(405, MethodNotAllowed), [])
  {
  }

  /** Under a non-POST method neither the body, nor the configuration, nor any
      upstream result is looked at. */
  lemma MethodCheckReadsNothingElse(verb: string, b1: Body, b2: Body, env1: Config, env2: Config, up1: Upstream, up2: Upstream)
    requires verb != "POST"
    ensures Handle(Request(verb, b1), env1, up1) == Handle(Request(verb, b2), env2, up2)
  {
  }

  /** An absent or empty body is read as `{}`, so a POST without one is
      refused as incomplete. */
  lemma AbsentBodyReadsAsEmptyObject(verb: string, env: Config, up: Upstream)
    ensures Handle(Request(verb, NoBody), env, up) == Handle(Request(verb, JsonValue(EmptyForm)), env, up)
    ensures verb == "POST" ==> Handle(Request(verb, NoBody), env, up) == Outcome(Error(400, IncompleteData), [])
  {
  }

  /** A body that is not JSON, or is JSON `null`, makes the handler throw; the
      outer catch answers 500 "Erro interno" with the exception text, never 400. */
  lemma MalformedBodyIs500(e: string, env: Config, up: Upstream)
    ensures Handle(Request("POST", Unparsable(e)), env, up) == Outcome(ErrorWithDetails(500, InternalError, Thrown(e)), [])
    ensures Handle(Request("POST", JsonNull), env, up) == Outcome(ErrorWithDetails(500, InternalError, Thrown(NullBodyError)), [])
  {
  }

  /** "Dados incompletos" is answered exactly when a POST body was read and one
      of the five fields is missing or empty; no call is made. */
  lemma IncompleteIff(req: Request, env: Config, up: Upstream)
    ensures Handle(req, env, up).response == Error(400, IncompleteData)
        <==> req.httpMethod == "POST" && ReadForm(req.body).Success? && !AllPresent(ReadForm(req.body).value)
    ensures Handle(req, env, up).response == Error(400, IncompleteData) ==> Handle(req, env, up).trace == []
  {
  }

  /** "Módulo inválido" is answered exactly when the input is complete but names
      no listed module; the response echoes the module and no call is made. */
  lemma UnknownModuleIff(req: Request, env: Config, up: Upstream)
    ensures (var r := Handle(req, env, up).response; r.body.ErrorPayload? && r.body.error == InvalidModule)
        <==> && req.httpMethod == "POST"
             && ReadForm(req.body).Success?
             && AllPresent(ReadForm(req.body).value)
             && ReadForm(req.body).value.modulo.value !in Modules
    ensures (var r := Handle(req, env, up).response; r.body.ErrorPayload? && r.body.error == InvalidModule) ==>
              && Handle(req, env, up).response.statusCode == 400
              && Handle(req, env, up).response == Json(400, ErrorPayload(InvalidModule, ReadForm(req.body).value.modulo, None))
              && Handle(req, env, up).trace == []
  {
  }

  /** The configuration error is answered exactly when the input is valid and
      some environment value is unset or empty, and before any call. */
  lemma ConfigErrorOnlyForValidInput(req: Request, env: Config, up: Upstream)
    ensures Handle(req, env, up).response == Error(500, EnvironmentMissing)
        <==> InputValid(req) && !ConfigComplete(env)
    ensures !ConfigComplete(env) ==> Handle(req, env, up).trace == []
  {
  }

  /** Every answer goes through the `json` helper: one header, the JSON
      content type, whatever the path taken. */
  lemma EveryResponseIsJson(req: Request, env: Config, up: Upstream)
    ensures Handle(req, env, up).response.headers == [("Content-Type", "application/json")]
  {
  }

  // ---------------------------------------------------------------------------
  // The outbound calls

  /** The inserted row is the form as submitted with the table's price for its
      module, and the preference charges that same price for one item. */
  lemma RegistrationPricedFromTable(req: Request, env: Config, up: Upstream)
    ensures var t := Handle(req, env, up).trace;
      |t| > 0 ==>
        && t[0].InsertRegistration?
        && t[0].url == InsertUrl(env.supabaseUrl.value)
        && ReadForm(req.body).Success?
        && var f := ReadForm(req.body).value;
           && t[0].record == Registration(f.nome.value, f.whatsapp.value, f.email.value, f.curso.value, f.modulo.value, PriceTable[f.modulo.value])
           && (|t| > 1 ==>
                 && t[1] == CreatePreference(PreferencesEndpoint, BuildPreference(t[0].record, env.siteUrl.value))
                 && t[1].preference.items[0].unitPrice == PriceTable[f.modulo.value])
  {
  }

  /** A failed or unreachable insert ends the request with 500 and the payment
      provider is never called. */
  lemma InsertFailureStops(req: Request, env: Config, up: Upstream)
    requires InputValid(req) && ConfigComplete(env)
    requires !Ok(up.insert)
    ensures Handle(req, env, up).response.statusCode == 500
    ensures up.insert.Threw? ==> Handle(req, env, up).response.body == ErrorPayload(SupabaseUnreachable, None, Some(Thrown(up.insert.error)))
    ensures up.insert.Replied? ==> Handle(req, env, up).response.body == ErrorPayload(InsertRejected, None, Some(UpstreamText(up.insert.text)))
    ensures |Handle(req, env, up).trace| == 1 && Handle(req, env, up).trace[0].InsertRegistration?
  {
  }

  /** A failed or unreachable preference creation ends the request with 500;
      the insert already happened and is not undone, and nothing is patched. */
  lemma PreferenceFailureKeepsRegistration(req: Request, env: Config, up: Upstream)
    requires InputValid(req) && ConfigComplete(env)
    requires Ok(up.insert) && !Ok(up.preference)
    ensures Handle(req, env, up).response.statusCode == 500
    ensures up.preference.Threw? ==> Handle(req, env, up).response.body == ErrorPayload(MercadoPagoUnreachable, None, Some(Thrown(up.preference.error)))
    ensures up.preference.Replied? ==> Handle(req, env, up).response.body == ErrorPayload(PreferenceRejected, None, Some(UpstreamText(up.preference.text)))
    ensures var t := Handle(req, env, up).trace;
      |t| == 2 && t[0].InsertRegistration? && t[1].CreatePreference?
  {
  }

  /** The PATCH is attempted exactly when the first inserted row has a truthy id
      and the preference reply has a truthy id; it writes that preference id to
      that row. */
  lemma PatchIffBothIds(req: Request, env: Config, up: Upstream)
    requires InputValid(req) && ConfigComplete(env)
    requires Ok(up.insert) && Ok(up.preference)
    ensures var t := Handle(req, env, up).trace;
      var row := Inscricao(up.insert.body);
      var mp := up.preference.body;
      && 2 <= |t| <= 3
      && (|t| == 3 <==> row.Some? && Truthy(row.value.id) && mp.PreferenceObject? && Truthy(mp.id))
      && (|t| == 3 ==> t[2] == PatchPreferenceId(PatchUrl(env.supabaseUrl.value, row.value.id.value), mp.id.value))
  {
  }

  /** Whatever the PATCH does (succeeds, fails, throws), the response and the
      calls attempted are the same. */
  lemma PatchOutcomeNeverMatters(req: Request, env: Config, up: Upstream, patch: Reply<()>)
    ensures Handle(req, env, up) == Handle(req, env, up.(patch := patch))
  {
  }

  /** A preference reply that decodes to `null` skips the link (its `id` is
      undefined) and then makes reading `init_point` throw: 500 "Erro interno". */
  lemma NullPreferenceIsInternalError(req: Request, env: Config, up: Upstream)
    requires InputValid(req) && ConfigComplete(env)
    requires Ok(up.insert) && Ok(up.preference) && up.preference.body.NullPreference?
    ensures Handle(req, env, up).response == ErrorWithDetails(500, InternalError, Thrown(NullPreferenceError))
    ensures |Handle(req, env, up).trace| == 2
  {
  }

  // ---------------------------------------------------------------------------
  // Success

  /** 200 is answered exactly when the input is valid, the configuration is
      complete, both calls succeeded and the preference reply is not `null`; its
      body is the reply's `init_point`, and the preference created was one item,
      titled "<curso> – <modulo>", of quantity one at the module's price, with the
      failure and pending pages equal. */
  lemma SuccessIff(req: Request, env: Config, up: Upstream)
    ensures Handle(req, env, up).response.statusCode == 200
        <==> && InputValid(req) && ConfigComplete(env)
             && Ok(up.insert) && Ok(up.preference)
             && up.preference.body.PreferenceObject?
    ensures Handle(req, env, up).response.statusCode == 200 ==>
              && Handle(req, env, up).response.body == CheckoutPayload(up.preference.body.initPoint)
              && var f := ReadForm(req.body).value;
                 var t := Handle(req, env, up).trace;
                 && t[1].CreatePreference?
                 && t[1].preference.items == [Item(f.curso.value + " – " + f.modulo.value, 1, PriceTable[f.modulo.value])]
                 && t[1].preference.backUrls.failure == t[1].preference.backUrls.pending
  {
  }

  /** The sample registration passes the ladder, priced at 70. */
  lemma IntermediateValidates(db: string, key: string, token: string, site: string)
    requires db != "" && key != "" && token != "" && site != ""
    ensures
      var form := Form(Some("Ana"), Some("+5511999999999"), Some("ana@x.com"), Some("Python"), Some("Intermediário"));
      Validate(Request("POST", JsonValue(form)), Config(Some(db), Some(key), Some(token), Some(site)))
        == Proceed(Registration("Ana", "+5511999999999", "ana@x.com", "Python", "Intermediário", 70), Settings(db, key, token, site))
  {
    PriceOfEachModule("Intermediário");
  }

  /** The healthy end-to-end run for one registrant choosing "Intermediário":
      the row is priced 70, the preference charges 70 for "Python – Intermediário",
      the row is linked to the preference, and the checkout URL is returned. */
  lemma IntermediateEndToEnd(db: string, key: string, token: string, site: string, insertText: string, prefText: string, patch: Reply<()>)
    requires db != "" && key != "" && token != "" && site != ""
    ensures
      var form := Form(Some("Ana"), Some("+5511999999999"), Some("ana@x.com"), Some("Python"), Some("Intermediário"));
      var env := Config(Some(db), Some(key), Some(token), Some(site));
      var up := Upstream(
        Replied(true, insertText, Rows([Some(Record(Some("7")))])),
        Replied(true, prefText, PreferenceObject(Some("pref-1"), Some("https://pay.example/init"))),
        patch);
      Handle(Request("POST", JsonValue(form)), env, up) == Outcome(
        Json(200, CheckoutPayload(Some("https://pay.example/init"))),
        [ InsertRegistration(InsertUrl(db), Registration("Ana", "+5511999999999", "ana@x.com", "Python", "Intermediário", 70)),
          CreatePreference(PreferencesEndpoint, Preference(
            [Item("Python – Intermediário", 1, 70)],
            Payer("Ana", "ana@x.com"),
            MakeBackUrls(site),
            "approved")),
          PatchPreferenceId(PatchUrl(db, "7"), "pref-1")])
  {
    IntermediateValidates(db, key, token, site);
    assert Title("Python", "Intermediário") == "Python – Intermediário";
  }
}

=== FILE: responses.dfy ===
/** The HTTP-style responses the handler returns and the `json` helper that builds them. */
module Responses {
  import opened Wrappers

  /** What an error response carries under `details`: the stringified exception,
      or the upstream response text (as `safeJson` would decode it). */
  datatype Details = Thrown(message: string) | UpstreamText(text: string)

  /** The JSON object placed in the response body. Absent optional members are
      the keys `JSON.stringify` leaves out. */
  datatype Payload =
    | ErrorPayload(error: string, received: Option<string>, details: Option<Details>)
    | CheckoutPayload(checkoutUrl: Option<string>)

  type Header = (string, string)

  datatype Response = Response(statusCode: int, headers: seq<Header>, body: Payload)

  const JsonContentType: Header := ("Content-Type", "application/json")

  /** The `json` helper: a status, the JSON content type, and the body. */
  function Json(statusCode: int, body: Payload): Response
  {
    Response(statusCode, [JsonContentType], body)
  }

  predicate IsJson(r: Response)
  {
    r.headers == [JsonContentType]
  }

  /** An error response without `received` or `details`. */
  function Error(statusCode: int, message: string): Response
  {
    Json(statusCode, ErrorPayload(message, None, None))
  }

  /** An error response carrying `details`. */
  function ErrorWithDetails(statusCode: int, message: string, details: Details): Response
  {
    Json(statusCode, ErrorPayload(message, None, Some(details)))
  }

  const MethodNotAllowed: string := "Método não permitido. Use POST."
  const IncompleteData: string := "Dados incompletos"
  const InvalidModule: string := "Módulo inválido"
  const EnvironmentMissing: string := "Variáveis de ambiente não configuradas no Netlify."
  const InsertRejected: string := "Erro ao salvar inscrição no banco."
  const SupabaseUnreachable: string := "Falha ao conectar no Supabase."
  const PreferenceRejected: string := "Erro ao criar checkout no Mercado Pago."
  const MercadoPagoUnreachable: string := "Falha ao conectar no Mercado Pago."
  const InternalError: string := "Erro interno"
}

=== FILE: wrappers.dfy ===
/** Optional and result values, and the one piece of JavaScript value semantics
    the handler relies on: truthiness of an optional string field. */
module Wrappers {

  /** A value that may be absent (JavaScript `undefined` or `null`). */
  datatype Option<+T> = None | Some(value: T)

  /** Either a computed value or the message of the exception that stopped it. */
  datatype Result<+T, +E> = Success(value: T) | Failure(error: E)

  /** JavaScript truthiness of an optional string: `undefined`, `null` and the
      empty string are falsy, every other string is truthy. */
  predicate Truthy(f: Option<string>)
  {
    f.Some? && f.value != ""
  }
}
